=== FILE: README.md ===
# TaskSyncApp core in Dafny

A model of the offline-first to-do app's local task store and its sync pass.

- The store is `LocalStorageService`. It keeps one JSON array of tasks under the key `@tasks`.
- `addTask`, `updateTaskSyncStatus` and `deleteTask` read that array, transform it, and write it back whole.
- `getTasks` only reads it, and `clearAllTasks` only removes the key.
- `SyncService.syncTasks` runs only when the device is connected. It takes a snapshot of the unsynced tasks and sends each one to the backend in store order. Each acknowledged task is then marked synced.
- The `TaskInput` form adds a task only when the typed text is not blank after `trim()`.

Modules:

- `Tasks` (tasks.dfy): the `Task` record, the caller-supplied `TaskData`, the set of ids and the id-uniqueness invariant.
- `TaskList` (task_list.dfy): the pure list transforms.
  - `Filter` is `Array.prototype.filter`, with the source's two callbacks as a `Selector`.
  - `MarkSynced` is the `map` in `updateTaskSyncStatus`.
  - `MarkAll` is a reference definition ("mark every task whose id is in a set"). The sync pass is proved against it.
- `LocalStorage` (local_storage.dfy): the storage service.
  - The value under `@tasks` is a `Slot`. It is either missing, a task array this service wrote, or any other text together with the task array `JSON.parse` makes of it (or the fact that it throws).
  - Whether a storage read or write succeeds is an `Io` parameter.
  - An operation that rethrows returns `Err` in its `Reply` and leaves the slot as it was.
- `Sync` (sync.dfy): the sync pass.
  - `SyncTasks` is a fold over the snapshot.
  - `RunSync` is the same pass written as the source's loop. It also returns the tasks it sent.
  - Connectivity is a boolean. The outcome of the k-th send is an oracle `send(k, task)`. `StubSend` is the shipped backend stand-in, which always succeeds.
- `TaskInput` (task_input.dfy): JavaScript's `trim()`, the add guard, the add button's `disabled` test, and `handleAddTask`.

Ids are meant to be unique, but nothing enforces it. `updateTaskSyncStatus` and `deleteTask` therefore act on every task that carries the id, and the model does the same. Read-failure behaviour is also modelled as written: `getTasks` turns a failed read into `[]`. So an `addTask`, `updateTaskSyncStatus` or `deleteTask` whose read fails but whose write succeeds overwrites the stored list: add leaves only the new task, and update and delete leave it empty (`AddTaskAfterFailedRead`, `UpdateTaskSyncStatusAfterFailedRead`, `DeleteTaskAfterFailedRead`).

## Model

| member | source | states |
|---|---|---|
| Tasks.NewTask | src/services/localStorageServices.ts:20-25 | the new record copies the caller's title and completion flag, takes the given id and timestamp, and is unsynced |
| TaskList.Filter | src/services/localStorageServices.ts:55 | the result holds exactly the tasks the callback keeps, drawn from the input, and is no longer than it |
| TaskList.FilterAppend | src/services/localStorageServices.ts:55 | filtering distributes over concatenation; with FilterSingle this fixes the result as the kept tasks, in their original order |
| TaskList.FilterSingle | src/services/localStorageServices.ts:55 | a one-task list keeps its task exactly when the selector keeps it, and is otherwise empty |
| TaskList.FilterIdempotent | src/services/localStorageServices.ts:55 | filtering twice with the same callback equals filtering once |
| TaskList.FilterKeepsUniqueIds | src/services/localStorageServices.ts:55 | a filtered list of uniquely-identified tasks still has unique ids, and no new ids |
| TaskList.MarkSynced | src/services/localStorageServices.ts:40-42 | length and positions are kept; every field but `synced` is kept; a task ends synced exactly when it was synced or carries the id |
| TaskList.MarkSyncedIdempotent | src/services/localStorageServices.ts:40-42 | marking an id twice equals marking it once |
| TaskList.MarkSyncedAbsentId | src/services/localStorageServices.ts:40-42 | marking an id no task carries returns the list unchanged |
| TaskList.MarkSyncedKeepsIds | src/services/localStorageServices.ts:40-42 | marking keeps the set of ids, and their uniqueness |
| LocalStorage.GetTasks | src/services/localStorageServices.ts:6-14 | a failed read, a missing key, an empty string or unparsable text yield `[]`; otherwise the stored array |
| LocalStorage.ReadAfterWrite | src/services/localStorageServices.ts:8-9 | records the JSON assumption: a read after this service's write returns exactly the written list |
| LocalStorage.AddTask | src/services/localStorageServices.ts:16-35 | it succeeds exactly when the write succeeds; the new task is unsynced, carries the caller's title and flag and the given id and time, and is appended to what was read; a failed write leaves the slot unchanged |
| LocalStorage.AddTaskAppends | src/services/localStorageServices.ts:27-28 | the stored list grows by one; the old tasks are an unchanged prefix and the new task is last |
| LocalStorage.AddTaskKeepsUniqueIds | src/services/localStorageServices.ts:21-28 | a fresh id keeps ids unique and adds exactly that id |
| LocalStorage.AddTaskAfterFailedRead | src/services/localStorageServices.ts:8-28 | if the read fails and the write succeeds, the stored list becomes just the new task |
| LocalStorage.UpdateTaskSyncStatus | src/services/localStorageServices.ts:37-48 | a failed write is swallowed and leaves the slot; otherwise length, positions and all fields but `synced` are kept, and `synced` becomes true exactly on the matching id |
| LocalStorage.UpdateTaskSyncStatusIdempotent | src/services/localStorageServices.ts:40-44 | applying the update twice leaves the same slot as applying it once |
| LocalStorage.UpdateTaskSyncStatusAbsentId | src/services/localStorageServices.ts:40-44 | an absent id leaves the stored list unchanged |
| LocalStorage.UpdateTaskSyncStatusKeepsUniqueIds | src/services/localStorageServices.ts:40-44 | the update keeps the set of ids and their uniqueness |
| LocalStorage.UpdateTaskSyncStatusAfterFailedRead | src/services/localStorageServices.ts:39-44 | if the read fails and the write succeeds, the stored list becomes empty |
| LocalStorage.DeleteTask | src/services/localStorageServices.ts:49-63 | it succeeds exactly when the write succeeds; then no task with the id remains, every other task stays, nothing new appears and the list does not grow; a failed write leaves the slot unchanged |
| LocalStorage.DeleteTaskSingle | src/services/localStorageServices.ts:55 | for any slot and working write, when the list read is one task, the task is kept exactly once when its id differs and dropped otherwise; with DeleteTaskKeepsOrder this makes the result exactly the tasks with other ids, in order |
| LocalStorage.DeleteTaskAfterFailedRead | src/services/localStorageServices.ts:52-58 | if the read fails and the write succeeds, the stored list becomes empty |
| LocalStorage.DeleteTaskKeepsOrder | src/services/localStorageServices.ts:55 | for any slot (own or foreign text) and working write, deleting from a list read as a concatenation is concatenating the deletions, so survivors keep their order |
| LocalStorage.DeleteTaskAbsentId | src/services/localStorageServices.ts:55-58 | an absent id leaves the stored list unchanged |
| LocalStorage.DeleteTaskIdempotent | src/services/localStorageServices.ts:55-58 | deleting twice leaves the same slot as deleting once |
| LocalStorage.DeleteTaskKeepsUniqueIds | src/services/localStorageServices.ts:55-58 | ids stay unique and the id set loses exactly the deleted id |
| LocalStorage.ClearAllTasks | src/services/localStorageServices.ts:66-73 | it succeeds exactly when the removal succeeds; then a read yields `[]`; a failed removal leaves the slot unchanged |
| LocalStorage.ClearThenGetTasks | src/services/localStorageServices.ts:66-73 | after a successful clear, `getTasks` returns `[]` whether or not the next read succeeds |
| Sync.SendTaskToServer | src/services/syncService.ts:29-36 | the stand-in backend reports success for every task |
| Sync.AckedFrom | src/services/syncService.ts:16-21 | an id is acknowledged from the k-th send on exactly when some such send of a task with that id succeeds |
| Sync.SyncFromMarksAcked | src/services/syncService.ts:16-22 | the loop's stored list equals the reference marking of exactly the acknowledged ids |
| Sync.SyncFromNoAck | src/services/syncService.ts:16-22 | if no send succeeds, the loop never writes |
| Sync.SyncTasksEndState | src/services/syncService.ts:12-22 | after a connected pass: same length and records, and a task is synced exactly when it was synced already or a snapshot task with its id was acknowledged |
| Sync.SyncTasksOffline | src/services/syncService.ts:8-9 | without connectivity the slot is returned untouched |
| Sync.SyncTasksAllFail | src/services/syncService.ts:17-21 | if every send fails, the slot is untouched |
| Sync.SyncTasksFailedSendStaysUnsynced | src/services/syncService.ts:16-21 | with unique ids, a task whose send failed is still unsynced after the pass, although later tasks were processed |
| Sync.SyncTasksStubSyncsAll | src/services/syncService.ts:16-36 | with the shipped always-succeeding send, a connected pass leaves every task synced |
| Sync.SyncTasksOnlyMarks | src/services/syncService.ts:12-22 | a pass keeps length, positions, ids, titles, flags and timestamps; tasks already synced are untouched |
| Sync.SyncTasksIdempotent | src/services/syncService.ts:12-22 | after a pass with the stand-in backend, the next pass has nothing to send and leaves the slot exactly as it is |
| Sync.RunSync | src/services/syncService.ts:6-26 | the loop sends exactly the tasks unsynced at the snapshot, in store order (none when offline), and ends in the same slot as the fold |
| TaskInput.Trim | src/components/TaskInput.tsx:17 | the result is a contiguous piece of the input; everything cut off is blank; a non-empty result starts and ends with a non-blank character |
| TaskInput.TrimEmptyIffBlank | src/components/TaskInput.tsx:17 | trimming yields the empty string exactly when every character is blank |
| TaskInput.TrimIdempotent | src/components/TaskInput.tsx:17 | trimming a trimmed text changes nothing |
| TaskInput.CanSubmit | src/components/TaskInput.tsx:17 | the guard passes exactly when the text has a non-blank character |
| TaskInput.AddButtonDisabled | src/components/TaskInput.tsx:49 | the button is disabled exactly when every character is blank |
| TaskInput.HandleAddTask | src/components/TaskInput.tsx:16-27 | blank text changes nothing; otherwise a failed write leaves slot and text, and a successful one appends one unsynced, not-completed task titled with the raw text and clears the field |
| TaskInput.AddButtonMatchesGuard | src/components/TaskInput.tsx:16-49 | the button is enabled exactly when pressing it creates a task |
| TaskInput.HandleAddTaskKeepsRawTitle | src/components/TaskInput.tsx:17-21 | for every accepted text that trimming would change, the stored title is the text as typed and differs from its trimmed form |
| TaskInput.HandleAddTaskPaddedTitle | src/components/TaskInput.tsx:17-21 | " milk " is accepted and stored as typed, while its trimmed form is "milk" |
| TaskInput.HandleAddTaskBlankIsNoOp | src/components/TaskInput.tsx:17 | blank text leaves slot and text as they were and creates nothing |

## Left out

- AsyncStorage and JSON. Storage is a `Slot` value, and each call's success is an `Io` parameter. `Written(tasks)` stands for the text `JSON.stringify` produces. That text is never empty and is assumed to parse back to the same list. Text from elsewhere is `Raw`, and the outcome of `JSON.parse` on it is given as a task array or as a throw.
- Stored text that parses to something other than an array of tasks (`null`, `42`, `{}`, `[null]`). `getTasks` (localStorageServices.ts:9) returns such a value unchanged. Then `[...tasks, newTask]` (:27) and `tasks.filter` (:55) throw a TypeError that `addTask` and `deleteTask` rethrow. `tasks.map` (:40) throws a TypeError that `updateTaskSyncStatus` swallows. `tasks.filter` in `syncTasks` (syncService.ts:13) throws into its catch at :23-25. A `Slot` cannot represent such text, so none of these paths is modelled.
- UUID generation and `new Date().toISOString()`. The id and the timestamp are parameters. Freshness of the id is a premise of `AddTaskKeepsUniqueIds`, because the source never checks it.
- NetInfo and the one-second `setTimeout` in `sendTaskToServer`. Connectivity is a boolean and send outcomes are an oracle. No timing is modelled.
- Sync.SyncTasks: storage I/O inside the pass is assumed to succeed. A failed write inside `updateTaskSyncStatus` is swallowed and leaves the task unsynced, so a failed send covers that effect. A failed read there is not modelled. Its effect on its own is shown by `UpdateTaskSyncStatusAfterFailedRead`. The `catch` in `syncTasks` is also not modelled. It cannot fire on any slot the model can represent: a `Slot` always reads as a task array, and with working storage nothing inside the `try` throws.
- Races between the fire-and-forget sync on connectivity events and concurrent deletes or adds (App.tsx:58-63, 88-91). These are concurrency. Each operation is modelled as one atomic step.
- React state, rendering, styles, alerts, `Keyboard.dismiss()`, logging and the `onTaskAdded` callback's in-memory list. These are UI glue. `HandleAddTask` reports the created task instead of calling the callback.
- The colour of the send icon (TaskInput.tsx:54). It is presentation, although it uses the same trimmed test.


=== FILE: local_storage.dfy ===
/**
 `LocalStorageService`: the task list lives as one blob under the key `@tasks`.
 `addTask`, `updateTaskSyncStatus` and `deleteTask` read it, transform the
 list and write the whole list back; `getTasks` only reads it, and
 `clearAllTasks` only removes the key.
 The key-value store is one `Slot`; whether each storage call succeeds is an
 `Io` oracle, since the storage library is not part of this model.
 */
module LocalStorage {
  import opened Tasks
  import opened TaskList

  /** What is stored under `@tasks`. */
  datatype Slot =
    | Missing                                       // no value under the key
    | Written(tasks: seq<Task>)                     // the JSON text of a task array this service wrote
    | Raw(json: string, parsed: Option<seq<Task>>)  // any other text; `parsed` is None when JSON.parse throws

  /** The outcome of `AsyncStorage.getItem`. */
  datatype Read = ReadFailed | ReadOk(slot: Slot)

  /** Whether the read and the write (or removal) of one call succeed. */
  datatype Io = Io(readOk: bool, writeOk: bool)

  const AllOk := Io(true, true)

  datatype StoreError = WriteFailed

  /** An operation's return value, or the error it rethrows. */
  datatype Result<+T> = Ok(value: T) | Err(error: StoreError)

  /** The slot after a call, and what the call returned. */
  datatype Reply<+T> = Reply(slot: Slot, result: Result<T>)

  function Fetch(slot: Slot, io: Io): Read
  {
    if io.readOk then ReadOk(slot) else ReadFailed
  }

  /** `getTasks`: a failed read, a missing key, the empty string and text
      that does not parse all yield the empty list; otherwise the parsed list. */
  function GetTasks(read: Read): (r: seq<Task>)
    ensures read.ReadFailed? ==> r == []
    ensures read == ReadOk(Missing) ==> r == []
    ensures read.ReadOk? && read.slot.Raw? && (read.slot.json == "" || read.slot.parsed.None?) ==> r == []
    ensures read.ReadOk? && read.slot.Raw? && read.slot.json != "" && read.slot.parsed.Some? ==> r == read.slot.parsed.value
    ensures read.ReadOk? && read.slot.Written? ==> r == read.slot.tasks
  {
    match read
    case ReadFailed => []
    case ReadOk(Missing) => []
    case ReadOk(Written(tasks)) => tasks        // JSON.stringify of an array is never "" and parses back
    case ReadOk(Raw(json, parsed)) =>
      if json == "" then []                    // "" is falsy
      else match parsed
        case Some(tasks) => tasks
        case None => []                        // JSON.parse threw; the catch returns []
  }

  /** The list a successful read of `slot` yields. */
  function Load(slot: Slot): seq<Task>
  {
    GetTasks(ReadOk(slot))
  }

  /** `addTask`: append a new unsynced task built from the caller's title and
      completion flag, a fresh id and a timestamp; a failed write rethrows and
      leaves the slot as it was. */
  function AddTask(slot: Slot, io: Io, data: TaskData, id: string, createdAt: string): (r: Reply<Task>)
    ensures r.result.Ok? <==> io.writeOk
    ensures r.result.Ok? ==>
      var t := r.result.value;
      && t.id == id && t.createdAt == createdAt && !t.synced
      && t.title == data.title && t.completed == data.completed
      && r.slot == Written(GetTasks(Fetch(slot, io)) + [t])
    ensures r.result.Err? ==> r.slot == slot
  {
    var tasks := GetTasks(Fetch(slot, io));
    var t := NewTask(data, id, createdAt);
    if io.writeOk then Reply(Written(tasks + [t]), Ok(t))
    else Reply(slot, Err(WriteFailed))
  }

  /** `updateTaskSyncStatus`: mark every task with `id` as synced. A failed
      write is logged and swallowed, so the slot is left as it was. */
  function UpdateTaskSyncStatus(slot: Slot, io: Io, id: string): (r: Slot)
    ensures !io.writeOk ==> r == slot
    ensures io.writeOk ==> (
      var before := GetTasks(Fetch(slot, io));
      && r.Written?
      && |r.tasks| == |before|
      && (forall i | 0 <= i < |before| :: SameRecord(r.tasks[i], before[i]))
      && (forall i | 0 <= i < |before| :: r.tasks[i].synced <==> before[i].synced || before[i].id == id))
  {
    if io.writeOk then Written(MarkSynced(GetTasks(Fetch(slot, io)), id)) else slot
  }

  /** `deleteTask`: keep the tasks whose id differs; a failed write rethrows
      and leaves the slot as it was. */
  function DeleteTask(slot: Slot, io: Io, id: string): (r: Reply<()>)
    ensures r.result.Ok? <==> io.writeOk
    ensures r.result.Ok? ==> r.slot.Written? && id !in Ids(r.slot.tasks)
    ensures r.result.Ok? ==> forall t | t in GetTasks(Fetch(slot, io)) :: t in r.slot.tasks <==> t.id != id
    ensures r.result.Ok? ==> forall t | t in r.slot.tasks :: t in GetTasks(Fetch(slot, io))
    ensures r.result.Ok? ==> |r.slot.tasks| <= |GetTasks(Fetch(slot, io))|
    ensures r.result.Err? ==> r.slot == slot
  {
    if io.writeOk then Reply(Written(Filter(GetTasks(Fetch(slot, io)), IdIsNot(id))), Ok(()))
    else Reply(slot, Err(WriteFailed))
  }

  /** `clearAllTasks`: remove the key; a failed removal rethrows. */
  function ClearAllTasks(slot: Slot, io: Io): (r: Reply<()>)
    ensures r.result.Ok? <==> io.writeOk
    ensures r.result.Ok? ==> GetTasks(ReadOk(r.slot)) == []
    ensures r.result.Err? ==> r.slot == slot
  {
    if io.writeOk then Reply(Missing, Ok(())) else Reply(slot, Err(WriteFailed))
  }

  // ---------------------------------------------------------------------------
  // Properties relating the operations

  /** Records the modelled JSON assumption rather than proving a round trip:
      `Written(tasks)` stands for `JSON.stringify(tasks)`, which is assumed to
      parse back to `tasks`, so a successful read of it yields `tasks`. */
  lemma ReadAfterWrite(tasks: seq<Task>)
    ensures Load(Written(tasks)) == tasks
  {
  }

  /** With working storage, `addTask` is `old + [newTask]`: one more task, and
      every earlier task unchanged and in place. */
  lemma AddTaskAppends(slot: Slot, data: TaskData, id: string, createdAt: string)
    ensures var r := AddTask(slot, AllOk, data, id, createdAt);
      && r.result.Ok?
      && |Load(r.slot)| == |Load(slot)| + 1
      && Load(r.slot)[..|Load(slot)|] == Load(slot)
      && Load(r.slot)[|Load(slot)|] == r.result.value
  {
  }

  /** A fresh id keeps ids unique, and the new id joins the existing ones. */
  lemma AddTaskKeepsUniqueIds(slot: Slot, data: TaskData, id: string, createdAt: string)
    requires UniqueIds(Load(slot))
    requires id !in Ids(Load(slot))
    ensures var r := AddTask(slot, AllOk, data, id, createdAt);
      UniqueIds(Load(r.slot)) && Ids(Load(r.slot)) == Ids(Load(slot)) + {id}
  {
  }

  /** `getTasks` turns a failed read into `[]`, so an `addTask` whose read
      fails but whose write succeeds replaces the whole stored list by the
      one new task. */
  lemma AddTaskAfterFailedRead(slot: Slot, data: TaskData, id: string, createdAt: string)
    ensures var r := AddTask(slot, Io(false, true), data, id, createdAt);
      r.result.Ok? && Load(r.slot) == [r.result.value]
  {
  }

  /** Marking an id synced twice leaves the same store as marking it once. */
  lemma UpdateTaskSyncStatusIdempotent(slot: Slot, id: string)
    ensures var once := UpdateTaskSyncStatus(slot, AllOk, id);
      UpdateTaskSyncStatus(once, AllOk, id) == once
  {
  }

  /** An id absent from the store leaves its contents as they were. */
  lemma UpdateTaskSyncStatusAbsentId(slot: Slot, id: string)
    requires id !in Ids(Load(slot))
    ensures Load(UpdateTaskSyncStatus(slot, AllOk, id)) == Load(slot)
  {
  }

  /** The update keeps every id, hence their uniqueness. */
  lemma UpdateTaskSyncStatusKeepsUniqueIds(slot: Slot, id: string)
    requires UniqueIds(Load(slot))
    ensures var after := Load(UpdateTaskSyncStatus(slot, AllOk, id));
      UniqueIds(after) && Ids(after) == Ids(Load(slot))
  {
  }

  /** A failed read before a successful write empties the store: the map runs over `[]`. */
  lemma UpdateTaskSyncStatusAfterFailedRead(slot: Slot, id: string)
    ensures Load(UpdateTaskSyncStatus(slot, Io(false, true), id)) == []
  {
  }

  /** Deletion distributes over concatenation of the list read from any
      slot, so the surviving tasks keep their relative order whoever wrote
      the stored text. */
  lemma DeleteTaskKeepsOrder(slot: Slot, io: Io, prefix: seq<Task>, suffix: seq<Task>, id: string)
    requires io.writeOk && GetTasks(Fetch(slot, io)) == prefix + suffix
    ensures Load(DeleteTask(slot, io, id).slot)
         == Load(DeleteTask(Written(prefix), AllOk, id).slot) + Load(DeleteTask(Written(suffix), AllOk, id).slot)
  {
    FilterAppend(prefix, suffix, IdIsNot(id));
  }

  /** When the list read holds one task, deletion keeps it exactly once when
      its id differs and drops it otherwise; with `DeleteTaskKeepsOrder` this
      fixes the result as the tasks with other ids, each once, in their order. */
  lemma DeleteTaskSingle(slot: Slot, io: Io, t: Task, id: string)
    requires io.writeOk && GetTasks(Fetch(slot, io)) == [t]
    ensures Load(DeleteTask(slot, io, id).slot) == if t.id != id then [t] else []
  {
  }

  /** A failed read before a successful write empties the store: the filter runs over `[]`. */
  lemma DeleteTaskAfterFailedRead(slot: Slot, id: string)
    ensures Load(DeleteTask(slot, Io(false, true), id).slot) == []
  {
  }

  /** An id absent from the store leaves its contents as they were. */
  lemma DeleteTaskAbsentId(slot: Slot, id: string)
    requires id !in Ids(Load(slot))
    ensures Load(DeleteTask(slot, AllOk, id).slot) == Load(slot)
  {
    var tasks := Load(slot);
    forall t | t in tasks ensures Keeps(IdIsNot(id), t) {
      assert t.id in Ids(tasks);
    }
    FilterKeepsAll(tasks, IdIsNot(id));
  }

  /** Deleting twice leaves the same store as deleting once. */
  lemma DeleteTaskIdempotent(slot: Slot, id: string)
    ensures var once := DeleteTask(slot, AllOk, id).slot;
      DeleteTask(once, AllOk, id).slot == once
  {
    FilterIdempotent(Load(slot), IdIsNot(id));
  }

  /** The survivors are a subsequence, so ids stay unique. */
  lemma DeleteTaskKeepsUniqueIds(slot: Slot, id: string)
    requires UniqueIds(Load(slot))
    ensures var after := Load(DeleteTask(slot, AllOk, id).slot);
      UniqueIds(after) && Ids(after) == Ids(Load(slot)) - {id}
  {
    var before := Load(slot);
    var after := Filter(before, IdIsNot(id));
    FilterKeepsUniqueIds(before, IdIsNot(id));
    forall x | x in Ids(before) - {id} ensures x in Ids(after) {
      var t :| t in before && t.id == x;
    }
  }

  /** After a successful `clearAllTasks`, `getTasks` returns `[]` even if the
      next read fails. */
  lemma ClearThenGetTasks(slot: Slot, io: Io, readOk: bool)
    requires io.writeOk
    ensures GetTasks(Fetch(ClearAllTasks(slot, io).slot, Io(readOk, true))) == []
  {
  }
}

=== FILE: sync.dfy ===
/**
 `SyncService.syncTasks`: when connected, snapshot the unsynced tasks and
 send each one in store order; after each acknowledged send, mark that id
 synced through `updateTaskSyncStatus`. Connectivity is a boolean and each
 send's outcome an oracle `send(k, task)` for the k-th send of the pass.
 Inside the pass every storage read and write succeeds.
 */
module Sync {
  import opened Tasks
  import opened TaskList
  import opened LocalStorage

  /** `sendTaskToServer`: the stand-in backend acknowledges every task. */
  function SendTaskToServer(task: Task): (success: bool)
    ensures success
  {
    true
  }

  /** The oracle the shipped code uses: every send reports success. */
  function StubSend(k: nat, task: Task): bool
  {
    SendTaskToServer(task)
  }

  /** The ids of the sends from the k-th on that report success. */
  function AckedFrom(pending: seq<Task>, send: (nat, Task) -> bool, k: nat): (ids: set<string>)
    ensures forall x | x in ids :: exists j | k <= j < |pending| :: send(j, pending[j]) && pending[j].id == x
    ensures forall j | k <= j < |pending| && send(j, pending[j]) :: pending[j].id in ids
    decreases |pending| - k
  {
    if k >= |pending| then {}
    else (if send(k, pending[k]) then {pending[k].id} else {}) + AckedFrom(pending, send, k + 1)
  }

  /** The loop from the k-th unsynced task on. */
  function SyncFrom(slot: Slot, pending: seq<Task>, send: (nat, Task) -> bool, k: nat): Slot
    decreases |pending| - k
  {
    if k >= |pending| then slot
    else
      var next := if send(k, pending[k]) then UpdateTaskSyncStatus(slot, AllOk, pending[k].id) else slot;
      SyncFrom(next, pending, send, k + 1)
  }

  /** The snapshot the pass iterates over. */
  function Pending(slot: Slot): seq<Task>
  {
    Filter(Load(slot), NotSynced)
  }

  function SyncTasks(connected: bool, slot: Slot, send: (nat, Task) -> bool): Slot
  {
    if !connected then slot else SyncFrom(slot, Pending(slot), send, 0)
  }

  /** The loop's end state: every acknowledged id is marked, nothing else changes. */
  lemma {:induction false} SyncFromMarksAcked(slot: Slot, pending: seq<Task>, send: (nat, Task) -> bool, k: nat)
    ensures Load(SyncFrom(slot, pending, send, k)) == MarkAll(Load(slot), AckedFrom(pending, send, k))
    decreases |pending| - k
  {
    if k >= |pending| {
      MarkAllEmpty(Load(slot));
    } else {
      var id := pending[k].id;
      var rest := AckedFrom(pending, send, k + 1);
      if send(k, pending[k]) {
        var next := UpdateTaskSyncStatus(slot, AllOk, id);
        SyncFromMarksAcked(next, pending, send, k + 1);
        MarkSyncedIsMarkAll(Load(slot), id);
        MarkAllCompose(Load(slot), {id}, rest);
        assert AckedFrom(pending, send, k) == {id} + rest;
      } else {
        SyncFromMarksAcked(slot, pending, send, k + 1);
        assert AckedFrom(pending, send, k) == rest;
      }
    }
  }

  /** When no send from the k-th on succeeds, the loop writes nothing. */
  lemma {:induction false} SyncFromNoAck(slot: Slot, pending: seq<Task>, send: (nat, Task) -> bool, k: nat)
    requires forall j | k <= j < |pending| :: !send(j, pending[j])
    ensures SyncFrom(slot, pending, send, k) == slot
    decreases |pending| - k
  {
    if k < |pending| {
      SyncFromNoAck(slot, pending, send, k + 1);
    }
  }

  /** The end state of a connected pass, task by task: same length, same
      records, and a task ends synced exactly when it was synced already or
      some snapshot task with its id was acknowledged. */
  lemma SyncTasksEndState(slot: Slot, send: (nat, Task) -> bool)
    ensures var before, after := Load(slot), Load(SyncTasks(true, slot, send));
      && |after| == |before|
      && (forall i | 0 <= i < |before| :: SameRecord(after[i], before[i]))
      && (forall i | 0 <= i < |before| ::
            after[i].synced <==>
              before[i].synced ||
              exists j | 0 <= j < |Pending(slot)| :: send(j, Pending(slot)[j]) && Pending(slot)[j].id == before[i].id)
  {
    SyncFromMarksAcked(slot, Pending(slot), send, 0);
  }

  /** Without connectivity the pass returns before touching the store. */
  lemma SyncTasksOffline(slot: Slot, send: (nat, Task) -> bool)
    ensures SyncTasks(false, slot, send) == slot
  {
  }

  /** If every send fails the store is not written at all. */
  lemma SyncTasksAllFail(slot: Slot, send: (nat, Task) -> bool)
    requires forall j | 0 <= j < |Pending(slot)| :: !send(j, Pending(slot)[j])
    ensures SyncTasks(true, slot, send) == slot
  {
    SyncFromNoAck(slot, Pending(slot), send, 0);
  }

  /** With unique ids, a snapshot task whose send fails is still unsynced at
      the end, even though the pass went on to the later tasks. */
  lemma SyncTasksFailedSendStaysUnsynced(slot: Slot, send: (nat, Task) -> bool, i: nat)
    requires UniqueIds(Load(slot))
    requires i < |Load(slot)| && !Load(slot)[i].synced
    requires forall j | 0 <= j < |Pending(slot)| && Pending(slot)[j] == Load(slot)[i] :: !send(j, Pending(slot)[j])
    ensures var after := Load(SyncTasks(true, slot, send));
      i < |after| && !after[i].synced
  {
    var before, pending := Load(slot), Pending(slot);
    SyncTasksEndState(slot, send);
    forall j | 0 <= j < |pending| && send(j, pending[j]) ensures pending[j].id != before[i].id {
      assert pending[j] in before;
      var m :| 0 <= m < |before| && before[m] == pending[j];
      if m != i {
        assert before[m].id != before[i].id;
      }
    }
  }

  /** With the shipped stand-in backend, a connected pass leaves every task synced. */
  lemma SyncTasksStubSyncsAll(slot: Slot)
    ensures var before, after := Load(slot), Load(SyncTasks(true, slot, StubSend));
      |after| == |before| && forall i | 0 <= i < |after| :: after[i].synced
  {
    var before, pending := Load(slot), Pending(slot);
    SyncTasksEndState(slot, StubSend);
    var after := Load(SyncTasks(true, slot, StubSend));
    forall i | 0 <= i < |after| ensures after[i].synced {
      if !before[i].synced {
        assert before[i] in pending;
        var j :| 0 <= j < |pending| && pending[j] == before[i];
        assert StubSend(j, pending[j]);
      }
    }
  }

  /** Sync only ever flips `synced` from false to true: ids, titles,
      completion flags and timestamps keep their positions, and tasks that
      were already synced are untouched. */
  lemma SyncTasksOnlyMarks(connected: bool, slot: Slot, send: (nat, Task) -> bool)
    ensures var before, after := Load(slot), Load(SyncTasks(connected, slot, send));
      && |after| == |before|
      && (forall i | 0 <= i < |before| :: SameRecord(after[i], before[i]))
      && (forall i | 0 <= i < |before| && before[i].synced :: after[i] == before[i])
      && Ids(after) == Ids(before)
  {
    var before, after := Load(slot), Load(SyncTasks(connected, slot, send));
    if connected {
      SyncTasksEndState(slot, send);
    }
    forall i | 0 <= i < |before| && before[i].synced ensures after[i] == before[i] {
      RecordEq(after[i], before[i]);
    }
    forall x | x in Ids(after) ensures x in Ids(before) {
      var t :| t in after && t.id == x;
      var i :| 0 <= i < |after| && after[i] == t;
      assert before[i] in before;
    }
    forall x | x in Ids(before) ensures x in Ids(after) {
      var t :| t in before && t.id == x;
      var i :| 0 <= i < |before| && before[i] == t;
      assert after[i] in after;
    }
  }

  /** After a pass against the stand-in backend, another pass (with any send
      outcomes) finds nothing to send and leaves the store exactly as it is. */
  lemma SyncTasksIdempotent(slot: Slot, send: (nat, Task) -> bool)
    ensures var once := SyncTasks(true, slot, StubSend);
      Pending(once) == [] && SyncTasks(true, once, send) == once
  {
    var once := SyncTasks(true, slot, StubSend);
    SyncTasksStubSyncsAll(slot);
    var after := Load(once);
    forall t | t in after ensures !Keeps(NotSynced, t) {
      var i :| 0 <= i < |after| && after[i] == t;
    }
    FilterKeepsNone(after, NotSynced);
  }

  /** The pass as the source writes it: a loop over the snapshot. `sent` lists
      the tasks handed to the backend, in the order they were sent. */
  method RunSync(connected: bool, slot: Slot, send: (nat, Task) -> bool) returns (r: Slot, sent: seq<Task>)
    ensures !connected ==> r == slot && sent == []
    ensures connected ==> sent == Filter(Load(slot), NotSynced)
    ensures forall t | t in sent :: t in Load(slot) && !t.synced
    ensures forall t | t in Load(slot) && !t.synced :: connected ==> t in sent
    ensures r == SyncTasks(connected, slot, send)
  {
    if !connected {
      return slot, [];
    }
    var pending := Filter(Load(slot), NotSynced);
    r, sent := slot, [];
    var k := 0;
    while k < |pending|
      invariant 0 <= k <= |pending|
      invariant sent == pending[..k]
      invariant SyncFrom(r, pending, send, k) == SyncFrom(slot, pending, send, 0)
    {
      var success := send(k, pending[k]);
      if success {
        r := UpdateTaskSyncStatus(r, AllOk, pending[k].id);
      }
      sent := sent + [pending[k]];
      k := k + 1;
    }
    assert sent == pending;
  }
}

=== FILE: task_input.dfy ===
/**
 The `TaskInput` form: a task is created only when the typed text is not
 blank after JavaScript's `trim()`; the stored title is the raw text, the
 completion flag is always false, and the field is cleared after a
 successful add. The add button is disabled by the same trimmed test.
 */
module TaskInput {
  import opened Tasks
  import opened LocalStorage

  /** The code points `String.prototype.trim` strips: ECMAScript's WhiteSpace
      (tab, vertical tab, form feed, ZWNBSP and the Unicode Zs category) and
      LineTerminator (LF, CR, LS, PS). */
  predicate IsWhitespace(c: char)
  {
    || c == '\t' || c == '\U{000B}' || c == '\U{000C}' || c == ' ' || c == '\U{00A0}' || c == '\U{FEFF}'
    || c == '\U{1680}' || ('\U{2000}' <= c <= '\U{200A}') || c == '\U{202F}' || c == '\U{205F}' || c == '\U{3000}'
    || c == '\n' || c == '\r' || c == '\U{2028}' || c == '\U{2029}'
  }

  /** Index of the first character `trim` keeps (|s| when all are blank). */
  function ContentStart(s: string): (i: nat)
    ensures i <= |s|
    ensures forall k | 0 <= k < i :: IsWhitespace(s[k])
    ensures i < |s| ==> !IsWhitespace(s[i])
    decreases |s|
  {
    if s == [] || !IsWhitespace(s[0]) then 0 else 1 + ContentStart(s[1..])
  }

  /** One past the last character `trim` keeps (0 when all are blank). */
  function ContentEnd(s: string): (j: nat)
    ensures j <= |s|
    ensures forall k | j <= k < |s| :: IsWhitespace(s[k])
    ensures j > 0 ==> !IsWhitespace(s[j - 1])
    decreases |s|
  {
    if s == [] || !IsWhitespace(s[|s| - 1]) then |s| else ContentEnd(s[..|s| - 1])
  }

  /** `String.prototype.trim`: the text with blank characters stripped from
      both ends. The result is a contiguous piece of `s`, everything cut off
      is blank, and a non-empty result starts and ends with a non-blank. */
  function Trim(s: string): (r: string)
    ensures ContentStart(s) + |r| <= |s| && r == s[ContentStart(s)..ContentStart(s) + |r|]
    ensures forall k | ContentStart(s) + |r| <= k < |s| :: IsWhitespace(s[k])
    ensures r != [] ==> !IsWhitespace(r[0]) && !IsWhitespace(r[|r| - 1])
  {
    var rest := s[ContentStart(s)..];
    rest[..ContentEnd(rest)]
  }

  /** `trim()` yields the empty string exactly on blank input. */
  lemma TrimEmptyIffBlank(s: string)
    ensures Trim(s) == [] <==> forall k | 0 <= k < |s| :: IsWhitespace(s[k])
  {
  }

  /** Trimming twice is trimming once. */
  lemma TrimIdempotent(s: string)
    ensures Trim(Trim(s)) == Trim(s)
  {
  }

  /** The guard of `handleAddTask`: `taskTitle.trim()` is truthy. */
  function CanSubmit(text: string): (ok: bool)
    ensures ok <==> exists k | 0 <= k < |text| :: !IsWhitespace(text[k])
  {
    TrimEmptyIffBlank(text);
    Trim(text) != ""
  }

  /** The add button's `disabled={!taskTitle.trim()}`. */
  function AddButtonDisabled(text: string): (disabled: bool)
    ensures disabled <==> forall k | 0 <= k < |text| :: IsWhitespace(text[k])
  {
    TrimEmptyIffBlank(text);
    !(Trim(text) != "")
  }

  /** What pressing the add button led to. */
  datatype Outcome =
    | Ignored                      // blank input: nothing happens
    | Created(task: Task)          // the task handed to `onTaskAdded`
    | Rejected(error: StoreError)  // `addTask` threw; the promise rejects

  /** The stored slot and the text field after `handleAddTask`. */
  datatype Submitted = Submitted(slot: Slot, text: string, outcome: Outcome)

  /** `handleAddTask`, with the store's I/O, the fresh id and the clock as parameters. */
  function HandleAddTask(text: string, slot: Slot, io: Io, id: string, createdAt: string): (r: Submitted)
    ensures !CanSubmit(text) ==> r == Submitted(slot, text, Ignored)
    ensures CanSubmit(text) && !io.writeOk ==> r == Submitted(slot, text, Rejected(WriteFailed))
    ensures CanSubmit(text) && io.writeOk ==>
      && r.outcome.Created?
      && r.text == ""
      && r.outcome.task.title == text
      && !r.outcome.task.completed
      && !r.outcome.task.synced
      && r.outcome.task.id == id
      && Load(r.slot) == GetTasks(Fetch(slot, io)) + [r.outcome.task]
  {
    if !CanSubmit(text) then Submitted(slot, text, Ignored)
    else
      var reply := AddTask(slot, io, TaskData(text, false), id, createdAt);
      match reply.result
      case Ok(t) => Submitted(reply.slot, "", Created(t))
      case Err(e) => Submitted(reply.slot, text, Rejected(e))
  }

  /** The button is enabled exactly when pressing it (with working storage)
      creates a task: both test the same trimmed text. */
  lemma AddButtonMatchesGuard(text: string, slot: Slot, id: string, createdAt: string)
    ensures !AddButtonDisabled(text) <==> HandleAddTask(text, slot, AllOk, id, createdAt).outcome.Created?
  {
  }

  /** The stored title is the raw input: whenever trimming would change the
      text, the task keeps the untrimmed text, not the trimmed one. */
  lemma HandleAddTaskKeepsRawTitle(text: string, slot: Slot, id: string, createdAt: string)
    requires CanSubmit(text) && Trim(text) != text
    ensures var r := HandleAddTask(text, slot, AllOk, id, createdAt);
      r.outcome.Created? && r.outcome.task.title == text && r.outcome.task.title != Trim(text)
  {
  }

  /** An input that reaches the case above: " milk " is stored as typed. */
  lemma HandleAddTaskPaddedTitle(slot: Slot, id: string, createdAt: string)
    ensures var r := HandleAddTask(" milk ", slot, AllOk, id, createdAt);
      r.outcome.Created? && r.outcome.task.title == " milk " && Trim(" milk ") == "milk"
  {
    var s := " milk ";
    assert ContentStart(s) == 1 by {
      assert !IsWhitespace(s[1]);
      assert s[1..][1..] != [] && !IsWhitespace(s[1..][0]);
    }
    var rest := s[1..];
    assert rest == "milk ";
    assert ContentEnd(rest) == 4 by {
      assert rest[..4] == "milk";
      assert !IsWhitespace(rest[..4][3]);
    }
    assert CanSubmit(s) by {
      assert !IsWhitespace(s[1]);
    }
  }

  /** A blank title adds nothing, whatever the storage does. */
  lemma HandleAddTaskBlankIsNoOp(text: string, slot: Slot, io: Io, id: string, createdAt: string)
    requires forall k | 0 <= k < |text| :: IsWhitespace(text[k])
    ensures HandleAddTask(text, slot, io, id, createdAt) == Submitted(slot, text, Ignored)
  {
  }
}

=== FILE: task_list.dfy ===
/**
 The list transforms the storage service applies between reading and writing
 the task blob: the `filter` behind `deleteTask` and the sync snapshot, and the
 `map` behind `updateTaskSyncStatus`. `MarkAll` is a reference definition
 (mark every task whose id is in a set) that the sync pass is proved against.
 */
module TaskList {
  import opened Tasks

  /** The two `filter` callbacks the source uses. */
  datatype Selector =
    | IdIsNot(id: string)   // `task => task.id !== taskId`
    | NotSynced             // `task => !task.synced`

  predicate Keeps(sel: Selector, t: Task)
  {
    match sel
    case IdIsNot(id) => t.id != id
    case NotSynced => !t.synced
  }

  /** `Array.prototype.filter`: the kept tasks, in their original order. */
  function Filter(tasks: seq<Task>, sel: Selector): (r: seq<Task>)
    ensures |r| <= |tasks|
    ensures forall t | t in r :: t in tasks && Keeps(sel, t)
    ensures forall t | t in tasks && Keeps(sel, t) :: t in r
    decreases |tasks|
  {
    if tasks == [] then []
    else if Keeps(sel, tasks[0]) then [tasks[0]] + Filter(tasks[1..], sel)
    else Filter(tasks[1..], sel)
  }

  /** Filter distributes over concatenation; together with its effect on a
      single task this pins the result down to "the kept tasks, in order". */
  lemma {:induction false} FilterAppend(a: seq<Task>, b: seq<Task>, sel: Selector)
    ensures Filter(a + b, sel) == Filter(a, sel) + Filter(b, sel)
    decreases |a|
  {
    if a == [] {
      assert a + b == b;
    } else {
      assert (a + b)[1..] == a[1..] + b;
      FilterAppend(a[1..], b, sel);
    }
  }

  lemma FilterSingle(t: Task, sel: Selector)
    ensures Filter([t], sel) == if Keeps(sel, t) then [t] else []
  {
  }

  /** A filter that keeps everything returns its input unchanged. */
  lemma {:induction false} FilterKeepsAll(tasks: seq<Task>, sel: Selector)
    requires forall t | t in tasks :: Keeps(sel, t)
    ensures Filter(tasks, sel) == tasks
    decreases |tasks|
  {
    if tasks != [] {
      assert tasks[0] in tasks;
      FilterKeepsAll(tasks[1..], sel);
      assert [tasks[0]] + tasks[1..] == tasks;
    }
  }

  /** A filter that keeps nothing returns the empty list. */
  lemma {:induction false} FilterKeepsNone(tasks: seq<Task>, sel: Selector)
    requires forall t | t in tasks :: !Keeps(sel, t)
    ensures Filter(tasks, sel) == []
    decreases |tasks|
  {
    if tasks != [] {
      assert tasks[0] in tasks;
      FilterKeepsNone(tasks[1..], sel);
    }
  }

  lemma FilterIdempotent(tasks: seq<Task>, sel: Selector)
    ensures Filter(Filter(tasks, sel), sel) == Filter(tasks, sel)
  {
  }

  /** A filtered list is a subsequence, so it cannot create a duplicate id. */
  lemma {:induction false} FilterKeepsUniqueIds(tasks: seq<Task>, sel: Selector)
    requires UniqueIds(tasks)
    ensures UniqueIds(Filter(tasks, sel))
    ensures Ids(Filter(tasks, sel)) <= Ids(tasks)
    decreases |tasks|
  {
    if tasks != [] {
      var rest := tasks[1..];
      assert UniqueIds(rest) by {
        forall i, j | 0 <= i < j < |rest| ensures rest[i].id != rest[j].id {
          assert rest[i] == tasks[i + 1] && rest[j] == tasks[j + 1];
        }
      }
      FilterKeepsUniqueIds(rest, sel);
      var fr := Filter(rest, sel);
      if Keeps(sel, tasks[0]) {
        var r := [tasks[0]] + fr;
        forall i, j | 0 <= i < j < |r| ensures r[i].id != r[j].id {
          if i == 0 {
            assert r[j] == fr[j - 1] && r[j] in rest;
            var k :| 0 <= k < |rest| && rest[k] == r[j];
            assert tasks[k + 1] == r[j];
          } else {
            assert r[i] == fr[i - 1] && r[j] == fr[j - 1];
          }
        }
      }
    }
  }

  /** The `map` in `updateTaskSyncStatus`: every task with the given id is
      copied with `synced = true`. */
  function MarkSynced(tasks: seq<Task>, id: string): (r: seq<Task>)
    ensures |r| == |tasks|
    ensures forall i | 0 <= i < |r| :: SameRecord(r[i], tasks[i])
    ensures forall i | 0 <= i < |r| :: r[i].synced <==> tasks[i].synced || tasks[i].id == id
  {
    seq(|tasks|, i requires 0 <= i < |tasks| =>
      if tasks[i].id == id then tasks[i].(synced := true) else tasks[i])
  }

  /** Reference definition: mark every task whose id is in `ids`. */
  function MarkAll(tasks: seq<Task>, ids: set<string>): (r: seq<Task>)
    ensures |r| == |tasks|
    ensures forall i | 0 <= i < |r| :: SameRecord(r[i], tasks[i])
    ensures forall i | 0 <= i < |r| :: r[i].synced <==> tasks[i].synced || tasks[i].id in ids
  {
    seq(|tasks|, i requires 0 <= i < |tasks| =>
      if tasks[i].id in ids then tasks[i].(synced := true) else tasks[i])
  }

  /** Two tasks that agree on every field but `synced`, and on `synced`, are equal. */
  lemma RecordEq(a: Task, b: Task)
    requires SameRecord(a, b) && a.synced == b.synced
    ensures a == b
  {
  }

  lemma MarkSyncedIsMarkAll(tasks: seq<Task>, id: string)
    ensures MarkSynced(tasks, id) == MarkAll(tasks, {id})
  {
  }

  lemma MarkAllCompose(tasks: seq<Task>, a: set<string>, b: set<string>)
    ensures MarkAll(MarkAll(tasks, a), b) == MarkAll(tasks, a + b)
  {
  }

  lemma MarkAllEmpty(tasks: seq<Task>)
    ensures MarkAll(tasks, {}) == tasks
  {
  }

  /** Marking the same id twice is marking it once. */
  lemma MarkSyncedIdempotent(tasks: seq<Task>, id: string)
    ensures MarkSynced(MarkSynced(tasks, id), id) == MarkSynced(tasks, id)
  {
  }

  /** An id no task carries leaves the list as it was. */
  lemma MarkSyncedAbsentId(tasks: seq<Task>, id: string)
    requires id !in Ids(tasks)
    ensures MarkSynced(tasks, id) == tasks
  {
  }

  /** Marking keeps every id in place, hence the set of ids and their uniqueness. */
  lemma MarkSyncedKeepsIds(tasks: seq<Task>, id: string)
    ensures Ids(MarkSynced(tasks, id)) == Ids(tasks)
    ensures UniqueIds(tasks) ==> UniqueIds(MarkSynced(tasks, id))
  {
  }
}

=== FILE: tasks.dfy ===
/**
 The task record shared by the local store, the sync pass and the input form,
 and the id-level vocabulary (the set of ids, id uniqueness) the other modules
 state their contracts in.
 */
module Tasks {

  datatype Option<+T> = None | Some(value: T)

  /** One to-do item. `id` and `createdAt` are opaque strings produced by a
      UUID generator and an ISO-8601 clock; `synced` records whether the
      (simulated) backend has acknowledged the task. */
  datatype Task = Task(
    id: string,
    title: string,
    completed: bool,
    createdAt: string,
    synced: bool
  )

  /** What a caller of `addTask` may supply: a task without `id`,
      `createdAt` and `synced`. */
  datatype TaskData = TaskData(title: string, completed: bool)

  /** The record `addTask` builds: the caller's fields, a fresh id and
      timestamp, and `synced` forced to false. */
  function NewTask(data: TaskData, id: string, createdAt: string): (t: Task)
    ensures t.title == data.title && t.completed == data.completed
    ensures t.id == id && t.createdAt == createdAt
    ensures !t.synced
  {
    Task(id, data.title, data.completed, createdAt, false)
  }

  /** `a` and `b` agree on every field except possibly `synced`. */
  predicate SameRecord(a: Task, b: Task)
  {
    a.id == b.id && a.title == b.title && a.completed == b.completed && a.createdAt == b.createdAt
  }

  function Ids(tasks: seq<Task>): set<string>
  {
    set t | t in tasks :: t.id
  }

  /** The store's intended invariant: no two positions share an id. */
  predicate UniqueIds(tasks: seq<Task>)
  {
    forall i, j | 0 <= i < j < |tasks| :: tasks[i].id != tasks[j].id
  }
}
